=== FILE: README.md ===
# Content generation service: a Dafny model

The service turns a content idea into three candidate social-media posts. For
each candidate it asks a primary language-model provider (DeepSeek through
OpenRouter) for a JSON reply, falling back to a second provider (Gemini) when
the primary raises. It cleans and type-checks the reply into a `Version`
(content shaped for the platform, plus three analysis scores). It then asks the
primary provider once more to score the kept versions and merges the returned
virality scores into them. A refine endpoint reworks one version. A humanize
endpoint rewrites free text. The browser shows the versions as tabs and
formats the active one into the output box.

This project models the deterministic parts of that flow as pure functions over
algebraic datatypes and proves what they promise:

| file | module | what it holds |
|---|---|---|
| `wrappers.dfy` | `Wrappers` | `Option` and `Result` |
| `strings.dfy` | `Strings` | Python `strip` and JavaScript `trim` whitespace sets, `str.replace(pat, "")`, `join`/`split`, decimal rendering |
| `json.dfy` | `Json` | decoded JSON values, `dict.get`, JavaScript truthiness |
| `domain.dfy` | `Domain` | the content union, analysis scores, `Version`, provider replies, JSON serialisation |
| `prompt.dfy` | `Prompt` | `build_prompt` as a sequence of instruction lines |
| `failover.dfy` | `Failover` | primary-then-fallback provider calls |
| `repair.dfy` | `Repair` | fence cleaning, key checks and the pydantic coercions |
| `scoring.dfy` | `Scoring` | the scoring text and the score merge |
| `generate.dfy` | `Generate` | the `/generate`, `/refine` and `/humanize` endpoints |
| `display.dfy` | `Display` | `showVersion`, `displayResults` and the refine-success update in the browser |

Provider calls are parameters: each is a `Reply`, either `Ok(text)` or
`Err(message)`, where `message` is the text of the exception raised. Python's
`json.loads` is a parameter `parse: string -> Option<JsonValue>`. JavaScript's
rendering of floats, arrays and objects inside template literals is the
parameter `text`, and its `JSON.stringify(value, null, 2)` is the parameter
`pretty`. The three generation attempts are a sequence in submission order.
That is the order `asyncio.gather` returns them in, whatever order they
complete in.

Behaviour of the code worth noting:
- No rule unwraps a `content` object nested inside `content`. Such a reply is
  rejected for every platform (`Repair.NestedContentRejected`).
- When all three attempts fail, `/generate` answers with an empty list. It
  raises no error and makes no scoring call (`Generate.AllFailedGivesEmpty`).
- The versions come back in submission order, not completion order.
- "```json" and "```" are deleted wherever they occur in the reply, not only
  where they enclose the payload.
- A double failure in `/humanize` reports a fixed message without either
  provider's exception text.

The scoring call asks the provider for JSON-object mode, but the merge loop
iterates the parsed reply as a list of entries. A reply that is a JSON object
therefore assigns no score at all (`Scoring.ObjectReplyAssignsNothing`).

## Model

| member | source | states |
|---|---|---|
| Prompt.CreativityLabel | backend/main.py:81-83 | "safe" exactly when creativity ≤ 33, "balanced" exactly when 33 < c ≤ 66, "inventive" exactly when c > 66; each bound belongs to the lower bucket |
| Prompt.FormalityLabel | backend/main.py:85-87 | the same thresholds with "very casual", "neutral" and "very formal" |
| Prompt.TierMonotone | backend/main.py:81-87 | a larger slider value never falls into a lower bucket |
| Prompt.RequestLines | backend/main.py:97-105 | the request part of the prompt holds the idea, platform, tone, formality and creativity lines; it holds the audience line exactly when an audience is given, and the 280-character line exactly for "X" |
| Prompt.StyleLines | backend/main.py:106-113 | the emoji, hashtag and suggestion lines appear exactly when their flags are on; the platform's content shape and the score scale are always present |
| Prompt.RefinementLines | backend/main.py:118-130 | a refine request adds one line carrying its original content and instruction; a plain request adds none |
| Prompt.BuildPrompt | backend/main.py:89-131 | every prompt names the idea, platform, tone, both slider labels, the platform's content shape and the score scale; a refine prompt ends with the refinement line |
| Prompt.TweetLimitOnlyForX | backend/main.py:89-91 | in the full prompt, the 280-character line appears if and only if the platform is "X" |
| Prompt.AudienceLineWhenGiven | backend/main.py:101 | in the full prompt, the audience line appears if and only if the audience is non-empty |
| Prompt.StyleLinesFollowFlags | backend/main.py:106-108 | in the full prompt, the emoji, hashtag and suggestion lines each appear if and only if their flag is set |
| Prompt.LinesEchoRequest | backend/main.py:93-127 | any content-shape, audience or refinement line in the prompt carries the request's own platform shape, audience or refinement, never another |
| Failover.Invoke | backend/main.py:142-158 | the primary is always called first and only once; the fallback is called at most once, and if and only if the primary raised; the primary's text wins when it succeeded; both-failed happens exactly when both raised, and it keeps both exception texts |
| Repair.Clean | backend/main.py:161 | the cleaned text never contains "```" and is never longer than the raw reply |
| Repair.CleanUnwrapsFence | backend/main.py:161 | a backtick-free payload wrapped as "```json" + p + "```" comes out exactly as p |
| Repair.CleanIsStripOnPlainText | backend/main.py:161 | on backtick-free text, cleaning is just Python's strip |
| Repair.AsStrings | backend/main.py:53-54 | a list validates as `List[str]` exactly when every element is a JSON string, and the result holds those strings in order |
| Repair.AsInstagram | backend/main.py:49-51 | `InstagramContent(**value)` succeeds exactly when the value is an object with string `caption` and `script`, and it keeps those two strings |
| Repair.AsThread | backend/main.py:53-54 | `XContent(**value)` succeeds exactly when the value is an object whose `thread` is a list of strings, and the tweets serialise back to that list |
| Repair.AsContent | backend/main.py:163-165 | the content accepted always fits the platform; Instagram accepts only caption-and-script objects, X only thread objects; a plain post is accepted only from a JSON string, never unwrapped from an object |
| Repair.AsAnyContent | backend/main.py:61 | the union field accepts a value exactly when it is a string or validates as `InstagramContent` or as `XContent`; a string becomes a plain post, and an object that validates as both models becomes Instagram content |
| Repair.AsAnalysis | backend/main.py:56-59 | `AnalysisScores(**value)` succeeds exactly when the value is an object with integer `readability`, `engagement_potential` and `human_likeness`, and the scores serialise back to those three fields |
| Repair.Coerce | backend/main.py:163-166 | a parsed reply becomes a Version exactly when it is an object with `content` and `analysis` that both coerce; the Version fits the platform and has no score yet; a non-object fails as such, and a missing `content` key fails by naming that key |
| Repair.Repair | backend/main.py:160-168 | unparsable cleaned text fails as invalid JSON; otherwise the parsed value is coerced |
| Repair.AsStringsRoundTrip | backend/main.py:53-54 | a list of strings serialised to JSON validates back to the same list |
| Repair.ContentRoundTrip | backend/main.py:163-165 | content that fits the platform, serialised to JSON, coerces back to itself |
| Repair.RepairRoundTrip | backend/main.py:160-166 | a reply whose cleaned text parses to exactly the serialised content and analysis of an unscored version reconstructs that version |
| Repair.FenceTransparent | backend/main.py:161-162 | wrapping a stripped, backtick-free payload in a json fence does not change the outcome of repair |
| Repair.PromptShapeAccepted | backend/main.py:93-95 | content in the shape the prompt asks the platform for is content the platform's coercion accepts |
| Repair.NestedContentRejected | backend/main.py:163-166 | a `content` object that only wraps another `content` key is rejected on every platform |
| Generate.Attempt | backend/main.py:140-168 | an attempt gives the both-failed sentinel exactly when both providers raised, and that sentinel names both exception texts; otherwise the text of the provider that answered is repaired, and a repair failure keeps that raw text; a produced version fits the platform and is unscored |
| Generate.Outcomes | backend/main.py:170-172 | one outcome per attempt, in submission order |
| Generate.Kept | backend/main.py:174 | the filter keeps at most one version per attempt |
| Generate.KeptExactly | backend/main.py:174 | every kept version comes from a produced outcome, and every produced outcome's version is kept; the sentinels are dropped |
| Generate.KeptAppend | backend/main.py:174 | keeping distributes over concatenation, so kept versions keep their relative order |
| Generate.KeptAt | backend/main.py:174 | a produced version sits after the versions from earlier attempts and before those from later ones |
| Generate.KeptNone | backend/main.py:174-175 | with no produced outcome nothing is kept |
| Generate.GenerateVersions | backend/main.py:170-201 | the response has one version per successful attempt (at most three), in attempt order, each keeping its content and analysis and fitting the platform; the scoring call is made exactly when something was kept, with the scoring text of the kept versions; a non-empty result is the kept versions with the scoring reply applied, and a failed scoring call leaves them as they were |
| Generate.AllFailedGivesEmpty | backend/main.py:174-201 | when no attempt produces a version, the response is an empty list and no scoring call is made |
| Generate.Refine | backend/main.py:207-234 | every failure is HTTP 500; a double provider failure names both exception texts; otherwise success is exactly a successful repair of the answering provider's text, and a repair failure carries that raw text |
| Generate.Humanize | backend/main.py:251-271 | failure exactly when both providers raised, with the fixed 500 message; otherwise the answering provider's text, stripped, with no whitespace at either end |
| Scoring.ThreadTextRecoversTweets | backend/main.py:183 | for a non-empty thread of tweets without newlines, splitting a thread's scoring text on newlines gives back the tweets |
| Scoring.BuildScoringText | backend/main.py:178-184 | the loop's text is the concatenation of the per-version blocks, in list order |
| Scoring.ScoringBlockInOrder | backend/main.py:179-184 | version i's block, numbered i+1, starts right after the blocks of the versions before it |
| Scoring.ContentText | backend/main.py:180-183 | a plain post reads as its own text, and Instagram content reads as "Caption: ", the caption, a newline and "Script: ", then the script, with nothing else |
| Scoring.Classify | backend/main.py:192-196 | an entry assigns only to an index below the number of versions, and only the entry's own `virality_score` and `justification`; an object whose integer index k satisfies 0 ≤ k < n assigns to version k, and one whose index is out of range is skipped and the loop goes on; a boolean index counts as 0 or 1; a float index inside the range ends the loop and one outside it is skipped; a string, list or object index ends the loop; a non-object entry ends the loop; a missing or null index is skipped |
| Scoring.Merge | backend/main.py:192-196 | the merge keeps the number of versions and never changes any version's content or analysis |
| Scoring.Reach | backend/main.py:192-199 | the loop gets through every entry before the first one that raises, and stops at that one |
| Scoring.MergeUntouched | backend/main.py:192-196 | a version that no reached entry targets comes out unchanged |
| Scoring.MergeLastWins | backend/main.py:192-196 | a targeted version takes both score fields from the last reached entry that targets it; the writes made before an entry raises are kept |
| Scoring.ApplyScores | backend/main.py:176-199 | the versions keep their number, content and analysis; a failed scoring call, a reply `json.loads` rejects, or a reply that is not a list changes nothing; a list reply is merged entry by entry |
| Scoring.ObjectReplyAssignsNothing | backend/main.py:187-192 | a JSON-object reply, the shape the requested response mode produces, assigns no score |
| Display.TweetBlockInOrder | backend/static/script.js:380-386 | tweet i's block, labelled [i+1/n], starts right after the blocks of the tweets before it |
| Display.Interpolate | backend/static/script.js:379-411 | inside a template literal a string shows as itself, an integer as its decimal rendering (which reads back as the number), a boolean as "true" or "false", null as "null" |
| Display.FormatContent | backend/static/script.js:375-398 | a string is shown as it is; an object with truthy caption and script shows "CAPTION:" and a newline, the caption, a blank line, "---", a blank line, "SCRIPT:" and a newline, then the script, with nothing else; otherwise an object with a thread array shows the numbered tweets (the panel only meets threads of strings); anything else shows the unexpected-format line followed by the pretty-printed value |
| Display.CharCountOf | backend/static/script.js:389-392 | a counter carries the tweet's length, its readout starts with that length in decimal, and it is flagged exactly when the length exceeds 280, so exactly 280 is not flagged |
| Display.CharCounts | backend/static/script.js:380-393 | a thread gets one counter per tweet, in order; any other content gets none |
| Display.ThreadBranchExactlyForThreads | backend/static/script.js:375-393 | the formatter takes its thread branch, where the counters are made, exactly for thread content, and walks exactly that thread's tweets |
| Display.PercentReadout | backend/static/script.js:409-411 | a score readout is the score in decimal, minus sign included, followed by a percent sign, and it reads back as the score |
| Display.Displayed | backend/static/script.js:399 | the output area holds a contiguous slice of the formatted content: everything before and after it is JavaScript white space, and the slice neither starts nor ends with white space |
| Display.PlainDisplayed | backend/static/script.js:375-376 | string content is shown unchanged apart from the final trim; text without white space at its ends is shown exactly |
| Display.ShowVersion | backend/static/script.js:362-414 | an index outside the list leaves the panel exactly as it was; otherwise that version becomes active, the list and tabs are untouched, the output is the trimmed formatted content with no whitespace at either end, the counters are those of the version's content, the justification is shown, as its template rendering, exactly when it is truthy, and the three score readouts are the version's readability, engagement and human-likeness percentages |
| Display.ShowVersionIdempotent | backend/static/script.js:362-399 | showing the same version twice gives the same panel as showing it once |
| Display.InstagramDisplayed | backend/static/script.js:377-379 | the formatted text of Instagram content with a non-empty caption and script contains both |
| Display.FallbackOnlyForIncompleteInstagram | backend/static/script.js:375-397 | of the content variants, only Instagram content with an empty caption or script falls through to the unexpected-format text |
| Display.Tabs | backend/static/script.js:343-354 | one tab per version, tab k titled "Version k+1", with a badge exactly when the version's virality score is truthy |
| Display.DisplayResults | backend/static/script.js:341-360 | the list and tabs are replaced; a non-empty list shows its first version, with that version's output, counters, justification text (present exactly when it is truthy) and score readouts; an empty list clears the list and the tabs and leaves everything else, including the active index, as it was |
| Display.TabLabelsDistinct | backend/static/script.js:346 | no two tabs carry the same title |
| Display.NoBadgeWithoutScore | backend/static/script.js:348-354 | a missing score or a score of 0 shows no badge |
| Display.ApplyRefined | backend/static/script.js:192-194 | a successful refine replaces only the active version and shows it, with its output, counters, justification text (present exactly when it is truthy) and score readouts; every other version is unchanged and the tabs are not rebuilt; with an active index outside the list nothing changes, as no request is sent then |

## Left out

- HTTP and SDK calls (the OpenRouter POSTs, the Gemini client, timeouts, status checks) are the `Reply` parameters; FastAPI routing and static file serving are not modelled.
- Concurrency: `asyncio.gather` is modelled by its result order only.
- `json.loads` is the `parse` parameter. Its handling of `NaN` and `Infinity` and its number precision are not modelled. JSON numbers are exact integers or reals.
- The rendered prompt wording and whitespace, and the scoring and humanize prompt texts: the model records which lines a prompt carries, not their text.
- The exception text inside the generate parse-error sentinel (`Error parsing response: …`) depends on library messages. It is kept only as the `ParseProblem` plus the raw reply.
- A provider that answers with no content (`None`) fails later, on `.strip()`. That path is not modelled: a successful `Reply` always carries text.
- Repair.AsInt: pydantic's lax integer mode also accepts floats with a zero fraction, numeric strings and booleans; the model accepts JSON integers only.
- Repair.AsAnalysis: inherits the integer restriction of `Repair.AsInt`.
- Generate.GenerateVersions: FastAPI's validation of the response against `MultiVersionResponse` is not modelled. That step can reject or convert score fields of unexpected types after the merge. The merged values are kept as the raw JSON they arrived as.
- Prompt.CreativityLabel: sliders are exact reals. A Python float slider can be NaN, which fails both comparisons, so the code labels it "inventive"; the model has no NaN and does not promise that.
- Prompt.FormalityLabel: the same NaN case, which the code labels "very formal".
- Display.PercentReadout: scores are unbounded integers. The browser holds them as doubles, so from 1e21 up the readout is in exponent form and above 2^53 its digits can differ; "reads back as the score" holds only for scores the double represents exactly below that range.
- Display.Interpolate: the same double-precision caveat applies to integer badges and readouts.
- Display.FormatContent: formats any thread items. In the browser a null tweet makes the counter's `.length` throw after its block is appended, and nothing is shown; the panel only formats Version content, whose tweets are strings, so this case cannot arise in the model.
- Display.ApplyRefined: a refine whose request was sent with a valid active index, answered after a new generation has emptied or shortened the list, writes past the end of the list in the browser (growing it, with holes when the index is beyond the end) and shows the refined version; the model assumes the list is unchanged while the request is in flight.
- Display.CharCountOf: takes a string. The thread items of a Version are `List[str]`, so a non-string tweet (whose `.length` would read a field or throw) cannot reach the display.
- Display.CharCountOf: a tweet's length is its number of Unicode characters, not JavaScript's UTF-16 code units.
- Display.ShowVersion: speech synthesis, read-only toggles, CSS classes, active-tab highlighting and the three.js score shapes are not modelled. Neither is the pixel position of character counters.
- The rest of the browser script (event wiring, `fetch`, clipboard, timers, preloader, animations) is not modelled.
- `backend/export_project.py` (a file-system export script) and `backend/check_models.py` (a remote model listing) are not part of this model.

=== FILE: display.dfy ===
/**
 The browser's results panel: one tab per returned version, the formatting
 of the active version's content into the output box, the per-tweet character
 counters, and the replacement of the active version after a refinement. The
 page state is a Screen value and each handler a function from Screen to Screen.
 */
module Display {
  import opened Wrappers
  import opened Strings
  import opened Json
  import opened Domain

  /**
   How a template literal `${x}` renders a decoded JSON value. Strings, integers,
   booleans and null have fixed renderings; floats, arrays and objects are
   rendered by `text`, the browser's own number and object conversion.
   */
  function Interpolate(j: JsonValue, text: JsonValue -> string): (r: string)
    ensures j.JString? ==> r == j.s
    ensures j.JInt? ==> ReadsAs(r, j.i)
    ensures j.JBool? ==> (r == "true" <==> j.b) && (r == "false" <==> !j.b)
    ensures j.JNull? ==> r == "null"
    ensures j.JFloat? || j.JArray? || j.JObject? ==> r == text(j)
  {
    match j
    case JString(s) => s
    case JInt(i) => IntToStringReadsBack(i); IntToString(i)
    case JBool(b) => if b then "true" else "false"
    case JNull => "null"
    case _ => text(j)
  }

  /** The lines of one tweet in the output box: `[i/n]`, the tweet, a blank line. */
  function TweetBlock(i: nat, n: nat, tweet: string): string {
    "[" + NatToString(i + 1) + "/" + NatToString(n) + "]\n" + tweet + "\n\n"
  }

  function TweetBlocks(items: seq<JsonValue>, text: JsonValue -> string): (r: seq<string>)
    ensures |r| == |items|
    ensures forall i :: 0 <= i < |items| ==> r[i] == TweetBlock(i, |items|, Interpolate(items[i], text))
  {
    seq(|items|, i requires 0 <= i < |items| => TweetBlock(i, |items|, Interpolate(items[i], text)))
  }

  /** The thread as the loop of `showVersion` builds it, before trimming. */
  function ThreadText(items: seq<JsonValue>, text: JsonValue -> string): string {
    Concat(TweetBlocks(items, text))
  }

  /** Tweet `i` is labelled with its 1-based position and the thread length, and follows the tweets before it. */
  lemma TweetBlockInOrder(items: seq<JsonValue>, text: JsonValue -> string, i: nat)
    requires i < |items|
    ensures OccursAt(ThreadText(items, text), TweetBlock(i, |items|, Interpolate(items[i], text)),
                     |Concat(TweetBlocks(items, text)[..i])|)
  {
    ConcatPieceAt(TweetBlocks(items, text), i);
  }

  const UnexpectedFormat: string := "Error: Received unexpected content format.\n\n"

  /** The content is an object whose `caption` and `script` are both truthy. */
  predicate CaptionAndScriptShown(j: JsonValue) {
    j.JObject? && Truthy(Get(j.fields, "caption")) && Truthy(Get(j.fields, "script"))
  }

  /** The content is an object whose `thread` is an array (arrays are always truthy). */
  predicate ThreadShown(j: JsonValue) {
    j.JObject? && Get(j.fields, "thread").JArray?
  }

  /** No branch of the formatter matched: the error line is shown. */
  predicate FallbackShown(j: JsonValue) {
    !j.JString? && !CaptionAndScriptShown(j) && !ThreadShown(j)
  }

  /**
   The text `showVersion` puts in the output box before trimming, chosen by
   the first branch that matches: a string as it is, an object with truthy
   caption and script as two labelled sections, an object with a thread array
   as numbered tweets, anything else as an error line followed by `pretty`,
   the two-space `JSON.stringify` of the value. The panel only formats the
   content of a Version, whose tweets are strings; a null tweet, on which the
   counter's `.length` throws, is not modelled.
   */
  function FormatContent(j: JsonValue, text: JsonValue -> string, pretty: JsonValue -> string): (r: string)
    ensures j.JString? ==> r == j.s
    ensures !j.JString? && CaptionAndScriptShown(j) ==>
      var caption, script := Interpolate(j.fields["caption"], text), Interpolate(j.fields["script"], text);
      && Contains(r, caption) && Contains(r, script)
      && Laid(r, "CAPTION:\n", caption, "\n\n---\n\nSCRIPT:\n", script)
    ensures !j.JString? && !CaptionAndScriptShown(j) && ThreadShown(j) ==> r == ThreadText(j.fields["thread"].items, text)
    ensures FallbackShown(j) ==>
      |UnexpectedFormat| <= |r| && r[..|UnexpectedFormat|] == UnexpectedFormat && r[|UnexpectedFormat|..] == pretty(j)
  {
    if j.JString? then j.s
    else if CaptionAndScriptShown(j) then
      var caption, script := Interpolate(j.fields["caption"], text), Interpolate(j.fields["script"], text);
      ContainsBoth("CAPTION:\n", caption, "\n\n---\n\nSCRIPT:\n", script);
      LaidOut("CAPTION:\n", caption, "\n\n---\n\nSCRIPT:\n", script);
      "CAPTION:\n" + caption + "\n\n---\n\nSCRIPT:\n" + script
    else if ThreadShown(j) then ThreadText(j.fields["thread"].items, text)
    else UnexpectedFormat + pretty(j)
  }

  /**
   One character counter under a tweet: the tweet's length, its readout
   `length / 280`, and whether it is flagged as over the limit. The tweets of
   a Version's thread are strings, so every tweet has a length.
   */
  datatype CharCount = CharCount(readout: string, length: nat, overLimit: bool)

  function CharCountOf(tweet: string): (r: CharCount)
    ensures r.length == |tweet|
    ensures r.overLimit <==> |tweet| > TweetCharLimit
    ensures var n := NatToString(|tweet|);
      |n| <= |r.readout| && r.readout[..|n|] == n && ReadsAs(n, |tweet|)
  {
    IntToStringReadsBack(|tweet|);
    CharCount(NatToString(|tweet|) + " / " + NatToString(TweetCharLimit), |tweet|, |tweet| > TweetCharLimit)
  }

  /** The counters shown for a version's content: one per tweet for a thread, none otherwise. */
  function CharCounts(c: Content): (r: seq<CharCount>)
    ensures c.Thread? ==>
      && |r| == |c.tweets|
      && forall i :: 0 <= i < |r| ==> r[i] == CharCountOf(c.tweets[i])
    ensures !c.Thread? ==> r == []
  {
    match c
    case Thread(ts) => seq(|ts|, i requires 0 <= i < |ts| => CharCountOf(ts[i]))
    case _ => []
  }

  /** One tab button: its title and, when the version's score is truthy, the score badge. */
  datatype Tab = Tab(title: string, badge: Option<string>)

  /** The panel state the handlers read and write. */
  datatype Screen = Screen(
    versions: seq<Version>,
    tabs: seq<Tab>,
    active: int,
    output: string,
    counts: seq<CharCount>,
    justification: Option<string>,
    scores: seq<string>)

  /** A score readout: `${score}%`. */
  function Percent(n: int): string {
    IntToString(n) + "%"
  }

  /** A score readout is the score's decimal rendering followed by a percent sign, so it reads back as the score. */
  lemma PercentReadout(n: int)
    ensures var t := Percent(n);
      |t| >= 2 && t[|t| - 1] == '%' && ReadsAs(t[..|t| - 1], n)
  {
    IntToStringReadsBack(n);
    assert Percent(n)[..|Percent(n)| - 1] == IntToString(n);
  }

  /** The three score readouts: readability, engagement potential and human likeness. */
  function ScoreTexts(a: AnalysisScores): seq<string> {
    [Percent(a.readability), Percent(a.engagementPotential), Percent(a.humanLikeness)]
  }

  /**
   The output box text for a version's content: the formatted text with its
   leading and trailing JavaScript white space removed and nothing else changed.
   */
  function Displayed(c: Content, text: JsonValue -> string, pretty: JsonValue -> string): (out: string)
    ensures var f := FormatContent(ContentJson(c), text, pretty);
      var lead := LeadFrom(f, IsJsWhitespace, 0);
      && lead + |out| <= |f|
      && out == f[lead..lead + |out|]
      && (forall k :: 0 <= k < lead ==> IsJsWhitespace(f[k]))
      && (forall k :: lead + |out| <= k < |f| ==> IsJsWhitespace(f[k]))
    ensures out == [] || (!IsJsWhitespace(out[0]) && !IsJsWhitespace(out[|out| - 1]))
  {
    JsTrim(FormatContent(ContentJson(c), text, pretty))
  }

  /** String content is shown as it is apart from the final trim, so text without white space at its ends is shown unchanged. */
  lemma PlainDisplayed(t: string, text: JsonValue -> string, pretty: JsonValue -> string)
    ensures Displayed(Plain(t), text, pretty) == JsTrim(t)
    ensures t == [] || (!IsJsWhitespace(t[0]) && !IsJsWhitespace(t[|t| - 1])) ==>
      Displayed(Plain(t), text, pretty) == t
  {
    if t == [] || (!IsJsWhitespace(t[0]) && !IsJsWhitespace(t[|t| - 1])) {
      StripKeepsTrimmed(t, IsJsWhitespace);
    }
  }

  /**
   `showVersion(index)`: an index outside the list leaves the panel exactly as
   it was; otherwise the version becomes active and its content, counters,
   justification and scores replace what was shown.
   */
  function ShowVersion(s: Screen, index: int, text: JsonValue -> string, pretty: JsonValue -> string): (r: Screen)
    ensures index < 0 || index >= |s.versions| ==> r == s
    ensures 0 <= index < |s.versions| ==>
      && r.active == index
      && r.versions == s.versions && r.tabs == s.tabs
      && r.output == Displayed(s.versions[index].content, text, pretty)
      && r.counts == CharCounts(s.versions[index].content)
      && (r.justification.Some? <==> Truthy(s.versions[index].justification))
      && (r.justification.Some? ==> r.justification.value == Interpolate(s.versions[index].justification, text))
      && r.scores == ScoreTexts(s.versions[index].analysis)
  {
    if index >= |s.versions| || index < 0 then s
    else
      var v := s.versions[index];
      s.(active := index,
         output := Displayed(v.content, text, pretty),
         counts := CharCounts(v.content),
         justification := if Truthy(v.justification) then Some(Interpolate(v.justification, text)) else None,
         scores := ScoreTexts(v.analysis))
  }

  /** Showing the same version twice shows the same panel as showing it once. */
  lemma ShowVersionIdempotent(s: Screen, index: int, text: JsonValue -> string, pretty: JsonValue -> string)
    ensures ShowVersion(ShowVersion(s, index, text, pretty), index, text, pretty) == ShowVersion(s, index, text, pretty)
  {
  }

  /** The formatted text of Instagram content with a non-empty caption and script contains both. */
  lemma InstagramDisplayed(cap: string, scr: string, text: JsonValue -> string, pretty: JsonValue -> string)
    requires cap != "" && scr != ""
    ensures var shown := FormatContent(ContentJson(Instagram(cap, scr)), text, pretty);
      Contains(shown, cap) && Contains(shown, scr)
  {
    var j := ContentJson(Instagram(cap, scr));
    assert j.fields["caption"] == JString(cap) && j.fields["script"] == JString(scr);
    assert CaptionAndScriptShown(j);
    assert FormatContent(j, text, pretty) == "CAPTION:\n" + cap + "\n\n---\n\nSCRIPT:\n" + scr;
    ContainsBoth("CAPTION:\n", cap, "\n\n---\n\nSCRIPT:\n", scr);
  }

  /**
   Of the domain's content variants, only Instagram content with an empty
   caption or script falls through to the error line: a plain post and a
   thread (even an empty one) are always shown in their own format.
   */
  lemma FallbackOnlyForIncompleteInstagram(c: Content)
    ensures FallbackShown(ContentJson(c)) <==> c.Instagram? && (c.caption == "" || c.script == "")
  {
  }

  /**
   The formatter takes its thread branch, the one that creates the counters,
   exactly for thread content, and it walks the same tweets the counters count.
   */
  lemma ThreadBranchExactlyForThreads(c: Content)
    ensures var j := ContentJson(c);
      !j.JString? && !CaptionAndScriptShown(j) && ThreadShown(j) <==> c.Thread?
    ensures c.Thread? ==> ContentJson(c).fields["thread"].items == StringsJson(c.tweets)
  {
    var j := ContentJson(c);
    if c.Thread? {
      assert !CaptionAndScriptShown(j);
    }
  }

  /** The tab for the version at list position `index`. */
  function TabFor(index: nat, v: Version, text: JsonValue -> string): Tab {
    Tab("Version " + NatToString(index + 1),
        if Truthy(v.viralityScore) then Some("\U{1F525} " + Interpolate(v.viralityScore, text)) else None)
  }

  /** One tab per version, in list order, titled by 1-based position and badged exactly when the score is truthy. */
  function Tabs(vs: seq<Version>, text: JsonValue -> string): (r: seq<Tab>)
    ensures |r| == |vs|
    ensures forall i :: 0 <= i < |vs| ==>
      && r[i].title == "Version " + NatToString(i + 1)
      && (r[i].badge.Some? <==> Truthy(vs[i].viralityScore))
  {
    seq(|vs|, i requires 0 <= i < |vs| => TabFor(i, vs[i], text))
  }

  /**
   `displayResults(versions)`: the list replaces the old one, the tabs are
   rebuilt, and the first version is shown when there is one. An empty list
   clears the tabs but leaves the rest of the panel, active index included, as
   it was.
   */
  function DisplayResults(s: Screen, vs: seq<Version>, text: JsonValue -> string, pretty: JsonValue -> string): (r: Screen)
    ensures r.versions == vs
    ensures r.tabs == Tabs(vs, text)
    ensures |vs| > 0 ==>
      && r.active == 0
      && r.output == Displayed(vs[0].content, text, pretty)
      && r.counts == CharCounts(vs[0].content)
      && (r.justification.Some? <==> Truthy(vs[0].justification))
      && (r.justification.Some? ==> r.justification.value == Interpolate(vs[0].justification, text))
      && r.scores == ScoreTexts(vs[0].analysis)
    ensures vs == [] ==> r == s.(versions := [], tabs := [])
  {
    var listed := s.(versions := vs, tabs := Tabs(vs, text));
    if |vs| > 0 then
      var shown := ShowVersion(listed, 0, text, pretty);
      assert shown.versions == vs && shown.tabs == listed.tabs;
      shown
    else listed
  }

  /** Every tab carries a different title, so the user can tell the versions apart. */
  lemma TabLabelsDistinct(vs: seq<Version>, text: JsonValue -> string, i: nat, k: nat)
    requires i < |vs| && k < |vs| && i != k
    ensures Tabs(vs, text)[i].title != Tabs(vs, text)[k].title
  {
    var prefix := "Version ";
    var a := Tabs(vs, text)[i].title;
    var b := Tabs(vs, text)[k].title;
    if a == b {
      assert a[|prefix|..] == NatToString(i + 1);
      assert b[|prefix|..] == NatToString(k + 1);
      NatToStringInjective(i + 1, k + 1);
    }
  }

  /** A version whose score is zero or missing gets no badge on its tab. */
  lemma NoBadgeWithoutScore(vs: seq<Version>, text: JsonValue -> string, i: nat)
    requires i < |vs|
    requires vs[i].viralityScore == JNull || vs[i].viralityScore == JInt(0)
    ensures Tabs(vs, text)[i].badge == None
  {
  }

  /**
   The refine handler on success: the active version is replaced by the refined
   one and shown again. The tabs are not rebuilt, so the active tab keeps the
   badge of the version it replaced. The handler sends no request unless the
   active index names a version (looking it up throws otherwise), so an index
   outside the list leaves the panel as it was; the list changing while the
   request is in flight is not part of this model.
   */
  function ApplyRefined(s: Screen, refined: Version, text: JsonValue -> string, pretty: JsonValue -> string): (r: Screen)
    ensures !(0 <= s.active < |s.versions|) ==> r == s
    ensures 0 <= s.active < |s.versions| ==>
      && r.versions == s.versions[s.active := refined]
      && r.active == s.active
      && r.tabs == s.tabs
      && r.output == Displayed(refined.content, text, pretty)
      && r.counts == CharCounts(refined.content)
      && (r.justification.Some? <==> Truthy(refined.justification))
      && (r.justification.Some? ==> r.justification.value == Interpolate(refined.justification, text))
      && r.scores == ScoreTexts(refined.analysis)
    ensures forall i :: 0 <= i < |s.versions| && i != s.active ==> r.versions[i] == s.versions[i]
  {
    if 0 <= s.active < |s.versions| then
      ShowVersion(s.(versions := s.versions[s.active := refined]), s.active, text, pretty)
    else s
  }
}

=== FILE: domain.dfy ===
/**
 The typed domain of the generation service: the content union, the analysis
 scores, a generated Version, and the replies of the two language-model
 providers.
 */
module Domain {
  import opened Json

  /**
   The `content` field of a Version. The service discriminates by platform:
   "Instagram" carries a caption and a video script, "X" a thread of tweets,
   every other platform a plain text post.
   */
  datatype Content =
    | Plain(text: string)
    | Instagram(caption: string, script: string)
    | Thread(tweets: seq<string>)

  datatype AnalysisScores = AnalysisScores(readability: int, engagementPotential: int, humanLikeness: int)

  /**
   One generated variant. The two score fields are filled in by the scoring
   pass; they are assigned without validation, so they hold whatever JSON value
   the scoring reply carried, and `JNull` stands for Python's `None`.
   */
  datatype Version = Version(
    content: Content,
    analysis: AnalysisScores,
    viralityScore: JsonValue,
    justification: JsonValue)

  /** A version as the generation step builds it: neither score field set. */
  predicate Unscored(v: Version) {
    v.viralityScore == JNull && v.justification == JNull
  }

  /** The shape of `content` the prompt asks each platform for. */
  datatype Shape = PlainPost | CaptionAndScript | TweetThread

  function ShapeFor(platform: string): Shape {
    if platform == "Instagram" then CaptionAndScript
    else if platform == "X" then TweetThread
    else PlainPost
  }

  function ShapeOf(c: Content): Shape {
    match c
    case Plain(_) => PlainPost
    case Instagram(_, _) => CaptionAndScript
    case Thread(_) => TweetThread
  }

  /**
   The content variants a platform's Version can hold. Instagram and X coerce
   into their own variant; for any other platform the field is validated against
   the whole union, so every variant can appear.
   */
  predicate Fits(platform: string, c: Content) {
    && (platform == "Instagram" ==> c.Instagram?)
    && (platform == "X" ==> c.Thread?)
  }

  /** The per-tweet character limit named in the X prompt and flagged in the browser. */
  const TweetCharLimit: nat := 280

  /** What one provider call produced: its text, or the text of the exception it raised. */
  datatype Reply = Ok(text: string) | Err(message: string)

  /** The JSON a Version's content serialises to. */
  function ContentJson(c: Content): JsonValue {
    match c
    case Plain(t) => JString(t)
    case Instagram(cap, scr) => JObject(map["caption" := JString(cap), "script" := JString(scr)])
    case Thread(ts) => JObject(map["thread" := JArray(StringsJson(ts))])
  }

  function StringsJson(ts: seq<string>): (r: seq<JsonValue>)
    ensures |r| == |ts|
    ensures forall i :: 0 <= i < |ts| ==> r[i] == JString(ts[i])
  {
    seq(|ts|, i requires 0 <= i < |ts| => JString(ts[i]))
  }

  function AnalysisJson(a: AnalysisScores): JsonValue {
    JObject(map[
      "readability" := JInt(a.readability),
      "engagement_potential" := JInt(a.engagementPotential),
      "human_likeness" := JInt(a.humanLikeness)])
  }

  /** The reply object the prompt asks the model for: exactly the keys `content` and `analysis`. */
  function ReplyJson(c: Content, a: AnalysisScores): JsonValue {
    JObject(map["content" := ContentJson(c), "analysis" := AnalysisJson(a)])
  }
}

=== FILE: failover.dfy ===
/**
 Primary/fallback failover as each endpoint writes it: the primary provider
 is called first and the fallback only when the primary raised.
 */
module Failover {
  import opened Domain

  datatype Provider = Primary | Fallback

  /** The text one of the providers produced, or both exception texts. */
  datatype Fetched = Fetched(text: string) | BothFailed(primaryError: string, fallbackError: string)

  /** The outcome of one failover, with the providers called, in call order. */
  datatype Invocation = Invocation(outcome: Fetched, called: seq<Provider>)

  function Invoke(primary: Reply, fallback: Reply): (r: Invocation)
    ensures |r.called| >= 1 && r.called[0] == Primary && Primary !in r.called[1..]
    ensures r.called == [Primary] || r.called == [Primary, Fallback]
    ensures Fallback in r.called <==> primary.Err?
    ensures primary.Ok? ==> r.outcome == Fetched(primary.text)
    ensures primary.Err? && fallback.Ok? ==> r.outcome == Fetched(fallback.text)
    ensures r.outcome.BothFailed? <==> primary.Err? && fallback.Err?
    ensures r.outcome.BothFailed? ==>
      r.outcome.primaryError == primary.message && r.outcome.fallbackError == fallback.message
  {
    match primary
    case Ok(text) => Invocation(Fetched(text), [Primary])
    case Err(e1) =>
      match fallback
      case Ok(text) => Invocation(Fetched(text), [Primary, Fallback])
      case Err(e2) => Invocation(BothFailed(e1, e2), [Primary, Fallback])
  }
}

=== FILE: generate.dfy ===
/**
 The three endpoints built on failover: `generate_versions` (three attempts,
 aggregation, scoring pass), `refine_version` (one attempt, errors raised as
 HTTP 500) and `humanize_text` (failover and strip, no parsing).
 */
module Generate {
  import opened Wrappers
  import opened Strings
  import opened Json
  import opened Domain
  import opened Failover
  import opened Repair
  import opened Scoring

  /** The number of generation attempts the service launches. */
  const AttemptCount: nat := 3

  /**
   The result of one generation attempt: a Version, or one of the two error
   sentinels, which the service returns as a plain dictionary with zero scores.
   */
  datatype AttemptOutcome =
    | Produced(version: Version)
    | ProvidersFailed(detail: string)
    | Unparsable(problem: ParseProblem, raw: string)

  function BothFailedDetail(primaryError: string, fallbackError: string): string {
    "Error: Both APIs failed. DeepSeek: " + primaryError + ", Gemini: " + fallbackError
  }

  /** One attempt: failover, then repair of whichever text a provider produced. */
  function Attempt(platform: string, primary: Reply, fallback: Reply, parse: string -> Option<JsonValue>): (r: AttemptOutcome)
    ensures r.ProvidersFailed? <==> primary.Err? && fallback.Err?
    ensures r.ProvidersFailed? ==>
      Contains(r.detail, primary.message) && Contains(r.detail, fallback.message)
    ensures primary.Ok? || fallback.Ok? ==>
      var raw := if primary.Ok? then primary.text else fallback.text;
      && (r.Produced? ==> Success(r.version) == Repair.Repair(platform, raw, parse))
      && (r.Unparsable? ==> r.raw == raw && Failure(r.problem) == Repair.Repair(platform, raw, parse))
    ensures r.Produced? ==> Fits(platform, r.version.content) && Unscored(r.version)
  {
    match Invoke(primary, fallback).outcome
    case BothFailed(e1, e2) =>
      ContainsBoth("Error: Both APIs failed. DeepSeek: ", e1, ", Gemini: ", e2);
      ProvidersFailed(BothFailedDetail(e1, e2))
    case Fetched(text) =>
      match Repair.Repair(platform, text, parse)
      case Success(v) => Produced(v)
      case Failure(problem) => Unparsable(problem, text)
  }

  /** The attempts in submission order, which is the order `asyncio.gather` returns them in. */
  function Outcomes(platform: string, calls: seq<(Reply, Reply)>, parse: string -> Option<JsonValue>): (r: seq<AttemptOutcome>)
    ensures |r| == |calls|
    ensures forall i :: 0 <= i < |calls| ==> r[i] == Attempt(platform, calls[i].0, calls[i].1, parse)
  {
    seq(|calls|, i requires 0 <= i < |calls| => Attempt(platform, calls[i].0, calls[i].1, parse))
  }

  /** The versions of the attempts that produced one, in attempt order; sentinels are dropped. */
  function Kept(outcomes: seq<AttemptOutcome>): (r: seq<Version>)
    ensures |r| <= |outcomes|
    decreases |outcomes|
  {
    if outcomes == [] then []
    else
      match outcomes[0]
      case Produced(v) => [v] + Kept(outcomes[1..])
      case _ => Kept(outcomes[1..])
  }

  /** The kept versions are exactly the versions of the produced outcomes: no sentinel survives and no success is lost. */
  lemma {:induction false} KeptExactly(outcomes: seq<AttemptOutcome>)
    ensures forall v :: v in Kept(outcomes) <==> Produced(v) in outcomes
    decreases |outcomes|
  {
    if outcomes != [] {
      KeptExactly(outcomes[1..]);
      assert outcomes == [outcomes[0]] + outcomes[1..];
    }
  }

  /** Keeping distributes over concatenation, so kept versions stay in attempt order. */
  lemma {:induction false} KeptAppend(a: seq<AttemptOutcome>, b: seq<AttemptOutcome>)
    ensures Kept(a + b) == Kept(a) + Kept(b)
    decreases |a|
  {
    if a == [] {
      assert a + b == b;
    } else {
      assert (a + b)[0] == a[0];
      assert (a + b)[1..] == a[1..] + b;
      KeptAppend(a[1..], b);
    }
  }

  /**
   A successful attempt's version sits after the versions of the attempts
   submitted before it and before those submitted after it.
   */
  lemma KeptAt(outcomes: seq<AttemptOutcome>, i: nat)
    requires i < |outcomes| && outcomes[i].Produced?
    ensures Kept(outcomes) == Kept(outcomes[..i]) + [outcomes[i].version] + Kept(outcomes[i + 1..])
  {
    var pre, post := outcomes[..i], outcomes[i + 1..];
    var rest := [outcomes[i]] + post;
    assert outcomes == pre + rest;
    KeptAppend(pre, rest);
    assert rest[0] == outcomes[i] && rest[1..] == post;
    assert Kept(rest) == [outcomes[i].version] + Kept(post);
  }

  /** With no successful attempt there is nothing to keep. */
  lemma {:induction false} KeptNone(outcomes: seq<AttemptOutcome>)
    requires forall i :: 0 <= i < |outcomes| ==> !outcomes[i].Produced?
    ensures Kept(outcomes) == []
    decreases |outcomes|
  {
    if outcomes != [] {
      KeptNone(outcomes[1..]);
    }
  }

  /** What `generate_versions` returns, and the scoring text it sent when it made the scoring call. */
  datatype Generated = Generated(versions: seq<Version>, scoringText: Option<string>)

  /**
   Runs the three attempts, keeps the versions, and, when at least one was
   kept, makes the single scoring call (primary provider only) and merges its
   reply. No error is raised when every attempt failed: the list is empty.
   */
  function GenerateVersions(
    platform: string,
    calls: seq<(Reply, Reply)>,
    scoring: Reply,
    parse: string -> Option<JsonValue>): (r: Generated)
    requires |calls| == AttemptCount
    ensures var kept := Kept(Outcomes(platform, calls, parse));
      && |r.versions| == |kept|
      && (forall i :: 0 <= i < |kept| ==>
            r.versions[i].content == kept[i].content && r.versions[i].analysis == kept[i].analysis)
      && (r.scoringText.Some? <==> |kept| > 0)
      && (r.scoringText.Some? ==> r.scoringText.value == ScoringText(kept))
      && (|kept| > 0 ==> r.versions == ApplyScores(kept, scoring, parse))
      && (scoring.Err? ==> r.versions == kept)
    ensures |r.versions| <= AttemptCount
    ensures forall i :: 0 <= i < |r.versions| ==> Fits(platform, r.versions[i].content)
  {
    var outcomes := Outcomes(platform, calls, parse);
    var kept := Kept(outcomes);
    assert forall i :: 0 <= i < |kept| ==> Fits(platform, kept[i].content) by {
      KeptExactly(outcomes);
      forall i | 0 <= i < |kept|
        ensures Fits(platform, kept[i].content)
      {
        assert kept[i] in kept;
        assert Produced(kept[i]) in outcomes;
      }
    }
    if |kept| == 0 then Generated([], None)
    else Generated(ApplyScores(kept, scoring, parse), Some(ScoringText(kept)))
  }

  /** When every attempt fails the service answers with an empty list and makes no scoring call. */
  lemma AllFailedGivesEmpty(
    platform: string,
    calls: seq<(Reply, Reply)>,
    scoring: Reply,
    parse: string -> Option<JsonValue>)
    requires |calls| == AttemptCount
    requires forall i :: 0 <= i < |calls| ==> !Attempt(platform, calls[i].0, calls[i].1, parse).Produced?
    ensures GenerateVersions(platform, calls, scoring, parse) == Generated([], None)
  {
    KeptNone(Outcomes(platform, calls, parse));
  }

  /** The error an endpoint raises: an HTTP status and its detail text. */
  datatype HttpError = HttpError(status: nat, detail: string)

  /**
   `refine_version`: one attempt whose failures are raised. A double provider
   failure names both exception texts; a parse failure carries the raw reply.
   */
  function Refine(platform: string, primary: Reply, fallback: Reply, parse: string -> Option<JsonValue>): (r: Result<Version, HttpError>)
    ensures r.Failure? ==> r.error.status == 500
    ensures primary.Err? && fallback.Err? ==>
      r.Failure? && Contains(r.error.detail, primary.message) && Contains(r.error.detail, fallback.message)
    ensures primary.Ok? || fallback.Ok? ==>
      var raw := if primary.Ok? then primary.text else fallback.text;
      && (r.Success? <==> Repair.Repair(platform, raw, parse).Success?)
      && (r.Success? ==> r.value == Repair.Repair(platform, raw, parse).value)
      && (r.Failure? ==> Contains(r.error.detail, raw))
  {
    match Invoke(primary, fallback).outcome
    case BothFailed(e1, e2) =>
      var head := "Both APIs failed on refinement. DeepSeek: ";
      ContainsBoth(head, e1, ", Gemini: ", e2);
      Failure(HttpError(500, head + e1 + ", Gemini: " + e2))
    case Fetched(text) =>
      match Repair.Repair(platform, text, parse)
      case Success(v) => Success(v)
      case Failure(_) =>
        ContainsTail("Error parsing AI response. Raw: ", text);
        Failure(HttpError(500, "Error parsing AI response. Raw: " + text))
  }

  /**
   `humanize_text`: failover, then the chosen text stripped. A double failure
   raises a fixed message that names neither cause.
   */
  function Humanize(primary: Reply, fallback: Reply): (r: Result<string, HttpError>)
    ensures r.Failure? <==> primary.Err? && fallback.Err?
    ensures r.Failure? ==> r.error == HttpError(500, "Both APIs failed to humanize the text.")
    ensures primary.Ok? ==> r == Success(PyStrip(primary.text))
    ensures primary.Err? && fallback.Ok? ==> r == Success(PyStrip(fallback.text))
    ensures r.Success? ==> r.value == [] || (!IsPyWhitespace(r.value[0]) && !IsPyWhitespace(r.value[|r.value| - 1]))
  {
    match Invoke(primary, fallback).outcome
    case BothFailed(_, _) => Failure(HttpError(500, "Both APIs failed to humanize the text."))
    case Fetched(text) => Success(PyStrip(text))
  }
}

=== FILE: json.dfy ===
/**
 The JSON values the service and the browser exchange, as Python's `json.loads`
 delivers them: integers and floats stay distinct, objects are dictionaries.
 */
module Json {

  datatype JsonValue =
    | JNull
    | JBool(b: bool)
    | JInt(i: int)
    | JFloat(r: real)
    | JString(s: string)
    | JArray(items: seq<JsonValue>)
    | JObject(fields: map<string, JsonValue>)

  /** Python's `d.get(key)`: a missing key reads as `None`, which is JSON `null`. */
  function Get(fields: map<string, JsonValue>, key: string): JsonValue {
    if key in fields then fields[key] else JNull
  }

  /** JavaScript truthiness of a decoded JSON value: `null`, `false`, `0` and `""` are falsy. */
  predicate Truthy(j: JsonValue) {
    match j
    case JNull => false
    case JBool(b) => b
    case JInt(i) => i != 0
    case JFloat(r) => r != 0.0
    case JString(s) => s != ""
    case JArray(_) => true
    case JObject(_) => true
  }
}

=== FILE: prompt.dfy ===
/**
 Prompt construction (`build_prompt`): which instruction lines the generation
 prompt carries for a request. The rendered wording is not modelled; each
 line is a Directive, in the order the prompt lists them.
 */
module Prompt {
  import opened Wrappers
  import opened Domain

  /** Extra fields of a refinement request: the content to rework and the user's instruction. */
  datatype Refinement = Refinement(original: Content, instruction: string)

  /** A generation request; `refinement` is present for the refine endpoint. */
  datatype Request = Request(
    idea: string,
    platform: string,
    tone: string,
    creativity: real,
    formality: real,
    smartEmojis: bool,
    autoHashtag: bool,
    contextualSuggestions: bool,
    targetAudience: string,
    refinement: Option<Refinement>)

  /** The three buckets both sliders fall into; each bucket includes its upper bound. */
  datatype Tier = Low | Middle | High

  function TierOf(x: real): Tier {
    if x <= 33.0 then Low else if x <= 66.0 then Middle else High
  }

  function Rank(t: Tier): nat {
    match t
    case Low => 0
    case Middle => 1
    case High => 2
  }

  function CreativityLabel(x: real): (name: string)
    ensures name == "safe" <==> x <= 33.0
    ensures name == "balanced" <==> 33.0 < x <= 66.0
    ensures name == "inventive" <==> 66.0 < x
  {
    match TierOf(x)
    case Low => "safe"
    case Middle => "balanced"
    case High => "inventive"
  }

  function FormalityLabel(x: real): (name: string)
    ensures name == "very casual" <==> x <= 33.0
    ensures name == "neutral" <==> 33.0 < x <= 66.0
    ensures name == "very formal" <==> 66.0 < x
  {
    match TierOf(x)
    case Low => "very casual"
    case Middle => "neutral"
    case High => "very formal"
  }

  /** A larger slider value never lands in a lower bucket. */
  lemma TierMonotone(x: real, y: real)
    requires x <= y
    ensures Rank(TierOf(x)) <= Rank(TierOf(y))
  {
  }

  /** One instruction line of the generation prompt. */
  datatype Directive =
    | IdeaLine(idea: string)
    | PlatformLine(platform: string)
    | AudienceLine(audience: string)
    | TweetLimitLine
    | ToneLine(tone: string)
    | FormalityLine(name: string)
    | CreativityLine(name: string)
    | EmojiLine
    | HashtagLine
    | SuggestionLine
    | ContentShapeLine(shape: Shape)
    | ScoreScaleLine
    | RefineLines(original: Content, instruction: string)

  function Optional(present: bool, d: Directive): (r: seq<Directive>)
    ensures forall e :: e in r <==> present && e == d
  {
    if present then [d] else []
  }

  /** The lines that describe the request itself, up to and including the optional X limit. */
  function RequestLines(req: Request): (p: seq<Directive>)
    ensures forall d :: d in p <==>
      || d == IdeaLine(req.idea)
      || d == PlatformLine(req.platform)
      || (req.targetAudience != "" && d == AudienceLine(req.targetAudience))
      || (req.platform == "X" && d == TweetLimitLine)
      || d == ToneLine(req.tone)
      || d == FormalityLine(FormalityLabel(req.formality))
      || d == CreativityLine(CreativityLabel(req.creativity))
  {
    [IdeaLine(req.idea), PlatformLine(req.platform)]
    + Optional(req.targetAudience != "", AudienceLine(req.targetAudience))
    + Optional(req.platform == "X", TweetLimitLine)
    + [ToneLine(req.tone),
       FormalityLine(FormalityLabel(req.formality)),
       CreativityLine(CreativityLabel(req.creativity))]
  }

  /** The optional style lines, then the required reply shape and score scale. */
  function StyleLines(req: Request): (p: seq<Directive>)
    ensures forall d :: d in p <==>
      || (req.smartEmojis && d == EmojiLine)
      || (req.autoHashtag && d == HashtagLine)
      || (req.contextualSuggestions && d == SuggestionLine)
      || d == ContentShapeLine(ShapeFor(req.platform))
      || d == ScoreScaleLine
  {
    Optional(req.smartEmojis, EmojiLine)
    + Optional(req.autoHashtag, HashtagLine)
    + Optional(req.contextualSuggestions, SuggestionLine)
    + [ContentShapeLine(ShapeFor(req.platform)), ScoreScaleLine]
  }

  /** The closing lines of a refinement prompt: the original content and the instruction. */
  function RefinementLines(refinement: Option<Refinement>): (p: seq<Directive>)
    ensures forall d :: d in p <==>
      refinement.Some? && d == RefineLines(refinement.value.original, refinement.value.instruction)
  {
    match refinement
    case None => []
    case Some(r) => [RefineLines(r.original, r.instruction)]
  }

  /**
   The instruction lines of the prompt for `req`, in order. The lines every
   prompt carries are listed here; the optional ones are characterised by
   TweetLimitOnlyForX, AudienceLineWhenGiven, StyleLinesFollowFlags and
   LinesEchoRequest.
   */
  function BuildPrompt(req: Request): (p: seq<Directive>)
    ensures IdeaLine(req.idea) in p && PlatformLine(req.platform) in p && ToneLine(req.tone) in p
    ensures CreativityLine(CreativityLabel(req.creativity)) in p
    ensures FormalityLine(FormalityLabel(req.formality)) in p
    ensures ContentShapeLine(ShapeFor(req.platform)) in p
    ensures ScoreScaleLine in p
    ensures req.refinement.Some? ==>
      p[|p| - 1] == RefineLines(req.refinement.value.original, req.refinement.value.instruction)
  {
    RequestLines(req) + StyleLines(req) + RefinementLines(req.refinement)
  }

  /** Membership in the prompt is membership in one of its three segments. */
  lemma InPrompt(req: Request, d: Directive)
    ensures d in BuildPrompt(req) <==>
      d in RequestLines(req) || d in StyleLines(req) || d in RefinementLines(req.refinement)
  {
  }

  /** The 280-character line appears exactly in prompts for "X". */
  lemma TweetLimitOnlyForX(req: Request)
    ensures TweetLimitLine in BuildPrompt(req) <==> req.platform == "X"
  {
    InPrompt(req, TweetLimitLine);
  }

  /** The audience line appears exactly when an audience is given. */
  lemma AudienceLineWhenGiven(req: Request)
    ensures AudienceLine(req.targetAudience) in BuildPrompt(req) <==> req.targetAudience != ""
  {
    InPrompt(req, AudienceLine(req.targetAudience));
  }

  /** The emoji, hashtag and suggestion lines each appear exactly when their flag is set. */
  lemma StyleLinesFollowFlags(req: Request)
    ensures EmojiLine in BuildPrompt(req) <==> req.smartEmojis
    ensures HashtagLine in BuildPrompt(req) <==> req.autoHashtag
    ensures SuggestionLine in BuildPrompt(req) <==> req.contextualSuggestions
  {
    InPrompt(req, EmojiLine);
    InPrompt(req, HashtagLine);
    InPrompt(req, SuggestionLine);
  }

  /** The parameterised lines carry the request's own values and the platform's content shape, never another. */
  lemma LinesEchoRequest(req: Request)
    ensures forall d :: d in BuildPrompt(req) && d.ContentShapeLine? ==> d.shape == ShapeFor(req.platform)
    ensures forall d :: d in BuildPrompt(req) && d.AudienceLine? ==> d.audience == req.targetAudience
    ensures forall d :: d in BuildPrompt(req) && d.RefineLines? ==>
      req.refinement == Some(Refinement(d.original, d.instruction))
  {
    forall d | d in BuildPrompt(req)
      ensures d.ContentShapeLine? ==> d.shape == ShapeFor(req.platform)
      ensures d.AudienceLine? ==> d.audience == req.targetAudience
      ensures d.RefineLines? ==> req.refinement == Some(Refinement(d.original, d.instruction))
    {
      InPrompt(req, d);
    }
  }
}

=== FILE: repair.dfy ===
/**
 Turning a provider's raw reply into a typed Version: fence cleaning, the
 key checks, and the coercion of `content` and `analysis` that the pydantic
 models perform. Any failure is a ParseProblem.
 */
module Repair {
  import opened Wrappers
  import opened Strings
  import opened Json
  import opened Domain

  const Fence: string := "```"
  const JsonFence: string := "```json"

  /** An occurrence of `pat` at the very start is dropped and the scan resumes after it. */
  lemma RemoveAllLeading(pat: string, t: string)
    requires |pat| > 0
    ensures RemoveAll(pat + t, pat) == RemoveAll(t, pat)
  {
    assert (pat + t)[..|pat|] == pat;
    assert (pat + t)[|pat|..] == t;
  }

  /** Strip the reply, then delete every "```json", then every "```", wherever they occur. */
  function Clean(raw: string): (r: string)
    ensures !Contains(r, Fence)
    ensures |r| <= |raw|
  {
    RemoveTripleLeavesNone(RemoveAll(PyStrip(raw), JsonFence), '`');
    RemoveAll(RemoveAll(PyStrip(raw), JsonFence), Fence)
  }

  predicate BacktickFree(s: string) {
    forall k :: 0 <= k < |s| ==> s[k] != '`'
  }

  /** A payload wrapped in a json fence comes out exactly as it went in. */
  lemma CleanUnwrapsFence(p: string)
    requires BacktickFree(p)
    ensures Clean(JsonFence + p + Fence) == p
  {
    var s := JsonFence + p + Fence;
    assert s[0] == '`' && s[|s| - 1] == '`';
    StripKeepsTrimmed(s, IsPyWhitespace);
    assert s == JsonFence + (p + Fence);
    RemoveAllLeading(JsonFence, p + Fence);
    RemoveAllKeepsPrefix(p, Fence, JsonFence);
    assert RemoveAll(Fence, JsonFence) == Fence;
    RemoveAllKeepsPrefix(p, Fence, Fence);
    RemoveAllLeading(Fence, []);
    assert p + [] == p;
  }

  /** On text without backticks, cleaning is just stripping. */
  lemma CleanIsStripOnPlainText(s: string)
    requires BacktickFree(s)
    ensures Clean(s) == PyStrip(s)
  {
    var t := PyStrip(s);
    forall k | 0 <= k < |t|
      ensures t[k] != '`'
    {
      StripChars(s, IsPyWhitespace, t[k]);
    }
    RemoveAllKeepsPrefix(t, [], JsonFence);
    RemoveAllKeepsPrefix(t, [], Fence);
    assert t + [] == t;
  }

  /** Why a reply could not become a Version. */
  datatype ParseProblem =
    | InvalidJson
    | NotAnObject
    | MissingKey(key: string)
    | BadContent
    | BadAnalysis

  /** A pydantic `str` field: only a JSON string is accepted. */
  function AsString(j: JsonValue): (r: Option<string>)
    ensures r.Some? <==> j.JString?
    ensures r.Some? ==> j == JString(r.value)
  {
    match j
    case JString(s) => Some(s)
    case _ => None
  }

  /** A pydantic `int` field, restricted to JSON integers. */
  function AsInt(j: JsonValue): (r: Option<int>)
    ensures r.Some? <==> j.JInt?
    ensures r.Some? ==> j == JInt(r.value)
  {
    match j
    case JInt(i) => Some(i)
    case _ => None
  }

  /** A pydantic `List[str]` field: every element must be a string. */
  function AsStrings(items: seq<JsonValue>): (r: Option<seq<string>>)
    ensures r.Some? <==> forall i :: 0 <= i < |items| ==> items[i].JString?
    ensures r.Some? ==> |r.value| == |items| && forall i :: 0 <= i < |items| ==> items[i] == JString(r.value[i])
    decreases |items|
  {
    if items == [] then Some([])
    else
      match (AsString(items[0]), AsStrings(items[1..]))
      case (Some(s), Some(rest)) => Some([s] + rest)
      case _ => None
  }

  /** `InstagramContent(**value)`: an object with string `caption` and `script`; other keys are ignored. */
  function AsInstagram(j: JsonValue): (r: Option<Content>)
    ensures r.Some? <==>
      j.JObject? && "caption" in j.fields && "script" in j.fields
      && j.fields["caption"].JString? && j.fields["script"].JString?
    ensures r.Some? ==> r.value == Instagram(j.fields["caption"].s, j.fields["script"].s)
  {
    match j
    case JObject(m) =>
      if "caption" in m && "script" in m then
        match (AsString(m["caption"]), AsString(m["script"]))
        case (Some(c), Some(s)) => Some(Instagram(c, s))
        case _ => None
      else None
    case _ => None
  }

  /** `XContent(**value)`: an object whose `thread` is a list of strings; other keys are ignored. */
  function AsThread(j: JsonValue): (r: Option<Content>)
    ensures r.Some? <==>
      j.JObject? && "thread" in j.fields && j.fields["thread"].JArray?
      && forall i :: 0 <= i < |j.fields["thread"].items| ==> j.fields["thread"].items[i].JString?
    ensures r.Some? ==> r.value.Thread? && StringsJson(r.value.tweets) == j.fields["thread"].items
  {
    match j
    case JObject(m) =>
      if "thread" in m && m["thread"].JArray? then
        match AsStrings(m["thread"].items)
        case Some(ts) => Some(Thread(ts))
        case None => None
      else None
    case _ => None
  }

  /** The `Union[str, InstagramContent, XContent]` field of Version: a string is a plain post, and an object valid as both models is Instagram content. */
  function AsAnyContent(j: JsonValue): (r: Option<Content>)
    ensures r.Some? <==> j.JString? || AsInstagram(j).Some? || AsThread(j).Some?
    ensures j.JString? ==> r == Some(Plain(j.s))
    ensures r.Some? && r.value.Instagram? ==> r == AsInstagram(j)
    ensures r.Some? && r.value.Thread? ==> r == AsThread(j) && AsInstagram(j).None?
  {
    if j.JString? then Some(Plain(j.s))
    else if AsInstagram(j).Some? then AsInstagram(j)
    else AsThread(j)
  }

  /**
   The content coercion of one platform: Instagram and X build their own model
   from the object; any other platform hands the raw value to the union field.
   */
  function AsContent(platform: string, j: JsonValue): (r: Option<Content>)
    ensures r.Some? ==> Fits(platform, r.value)
    ensures r.Some? && r.value.Plain? ==> j == JString(r.value.text)
    ensures r.Some? && r.value.Instagram? ==> AsInstagram(j) == r
    ensures r.Some? && r.value.Thread? ==> AsThread(j) == r
    ensures platform == "Instagram" ==> r == AsInstagram(j)
    ensures platform == "X" ==> r == AsThread(j)
    ensures platform != "Instagram" && platform != "X" ==>
      (r.Some? <==> j.JString? || AsInstagram(j).Some? || AsThread(j).Some?)
  {
    if platform == "Instagram" then AsInstagram(j)
    else if platform == "X" then AsThread(j)
    else AsAnyContent(j)
  }

  /** `AnalysisScores(**value)`: an object with the three integer keys; other keys are ignored. */
  function AsAnalysis(j: JsonValue): (r: Option<AnalysisScores>)
    ensures r.Some? <==>
      j.JObject? && "readability" in j.fields && "engagement_potential" in j.fields
      && "human_likeness" in j.fields
      && j.fields["readability"].JInt? && j.fields["engagement_potential"].JInt?
      && j.fields["human_likeness"].JInt?
    ensures r.Some? ==> AnalysisJson(r.value) == JObject(map[
      "readability" := j.fields["readability"],
      "engagement_potential" := j.fields["engagement_potential"],
      "human_likeness" := j.fields["human_likeness"]])
  {
    match j
    case JObject(m) =>
      if "readability" in m && "engagement_potential" in m && "human_likeness" in m then
        match (AsInt(m["readability"]), AsInt(m["engagement_potential"]), AsInt(m["human_likeness"]))
        case (Some(a), Some(b), Some(c)) => Some(AnalysisScores(a, b, c))
        case _ => None
      else None
    case _ => None
  }

  /**
   Builds a Version from the parsed reply, with the checks in the order the
   service makes them: `content` is looked up first, Instagram and X coerce it
   at once, then `analysis` is looked up and coerced, and only then does the
   union field validate the content of any other platform.
   */
  function Coerce(platform: string, data: JsonValue): (r: Result<Version, ParseProblem>)
    ensures r.Success? <==>
      && data.JObject? && "content" in data.fields && "analysis" in data.fields
      && AsContent(platform, data.fields["content"]).Some?
      && AsAnalysis(data.fields["analysis"]).Some?
    ensures r.Success? ==>
      && Fits(platform, r.value.content)
      && Unscored(r.value)
      && Some(r.value.content) == AsContent(platform, data.fields["content"])
      && Some(r.value.analysis) == AsAnalysis(data.fields["analysis"])
    ensures !data.JObject? ==> r == Failure(NotAnObject)
    ensures data.JObject? && "content" !in data.fields ==> r == Failure(MissingKey("content"))
  {
    match data
    case JObject(m) =>
      if "content" !in m then Failure(MissingKey("content"))
      else if (platform == "Instagram" || platform == "X") && AsContent(platform, m["content"]).None? then
        Failure(BadContent)
      else if "analysis" !in m then Failure(MissingKey("analysis"))
      else if AsAnalysis(m["analysis"]).None? then Failure(BadAnalysis)
      else if AsContent(platform, m["content"]).None? then Failure(BadContent)
      else Success(Version(AsContent(platform, m["content"]).value, AsAnalysis(m["analysis"]).value, JNull, JNull))
    case _ => Failure(NotAnObject)
  }

  /** Clean, parse with `parse` (Python's `json.loads`), then coerce. */
  function Repair(platform: string, raw: string, parse: string -> Option<JsonValue>): (r: Result<Version, ParseProblem>)
    ensures parse(Clean(raw)).None? ==> r == Failure(InvalidJson)
    ensures parse(Clean(raw)).Some? ==> r == Coerce(platform, parse(Clean(raw)).value)
  {
    match parse(Clean(raw))
    case None => Failure(InvalidJson)
    case Some(data) => Coerce(platform, data)
  }

  /** A list of strings serialised to JSON reads back as the same list. */
  lemma {:induction false} AsStringsRoundTrip(ts: seq<string>)
    ensures AsStrings(StringsJson(ts)) == Some(ts)
  {
    if ts != [] {
      AsStringsRoundTrip(ts[1..]);
      assert StringsJson(ts)[1..] == StringsJson(ts[1..]);
      assert [ts[0]] + ts[1..] == ts;
    }
  }

  /** Content of the shape the platform asks for, serialised to JSON, coerces back to itself. */
  lemma ContentRoundTrip(platform: string, c: Content)
    requires Fits(platform, c)
    ensures AsContent(platform, ContentJson(c)) == Some(c)
  {
    if c.Thread? {
      AsStringsRoundTrip(c.tweets);
    }
  }

  /**
   A well-formed reply in the shape the prompt asked for is reconstructed
   exactly: the Version carries the reply's content and scores and no score
   fields yet.
   */
  lemma RepairRoundTrip(platform: string, raw: string, parse: string -> Option<JsonValue>, v: Version)
    requires Fits(platform, v.content) && Unscored(v)
    requires parse(Clean(raw)) == Some(ReplyJson(v.content, v.analysis))
    ensures Repair(platform, raw, parse) == Success(v)
  {
    var data := ReplyJson(v.content, v.analysis);
    assert data.fields["content"] == ContentJson(v.content);
    assert data.fields["analysis"] == AnalysisJson(v.analysis);
    ContentRoundTrip(platform, v.content);
    assert AsAnalysis(AnalysisJson(v.analysis)) == Some(v.analysis);
  }

  /** Wrapping a stripped, backtick-free payload in a json fence does not change what repair makes of it. */
  lemma FenceTransparent(platform: string, p: string, parse: string -> Option<JsonValue>)
    requires BacktickFree(p) && PyStrip(p) == p
    ensures Repair(platform, JsonFence + p + Fence, parse) == Repair(platform, p, parse)
  {
    CleanUnwrapsFence(p);
    CleanIsStripOnPlainText(p);
  }

  /**
   The content the prompt asks a platform for is content its coercion accepts:
   the shape named in the prompt and the variant coercion builds agree.
   */
  lemma PromptShapeAccepted(platform: string, c: Content)
    requires ShapeOf(c) == ShapeFor(platform)
    ensures AsContent(platform, ContentJson(c)) == Some(c)
  {
    ContentRoundTrip(platform, c);
  }

  /**
   Content is never unwrapped: when `content` is an object holding only a
   nested `content` key, no platform accepts the reply, even one expecting a
   plain post.
   */
  lemma NestedContentRejected(platform: string, data: JsonValue, inner: string)
    requires data.JObject? && "content" in data.fields
    requires data.fields["content"] == JObject(map["content" := JString(inner)])
    ensures Coerce(platform, data).Failure?
  {
  }
}

=== FILE: scoring.dfy ===
/**
 The scoring pass of `generate_versions`: the text sent for comparison, and
 the merge of the returned `{version_index, virality_score, justification}`
 entries into the kept versions.
 */
module Scoring {
  import opened Wrappers
  import opened Strings
  import opened Json
  import opened Domain

  /** How a version's content reads in the scoring text. */
  function ContentText(c: Content): (r: string)
    ensures c.Plain? ==> r == c.text
    ensures c.Instagram? ==> Contains(r, c.caption) && Contains(r, c.script)
    ensures c.Instagram? ==> Laid(r, "Caption: ", c.caption, "\nScript: ", c.script)
  {
    match c
    case Plain(t) => t
    case Instagram(cap, scr) =>
      ContainsBoth("Caption: ", cap, "\nScript: ", scr);
      LaidOut("Caption: ", cap, "\nScript: ", scr);
      "Caption: " + cap + "\nScript: " + scr
    case Thread(ts) => Join(ts, "\n")
  }

  /** A thread of newline-free tweets can be read back from its scoring text. */
  lemma ThreadTextRecoversTweets(ts: seq<string>)
    requires |ts| >= 1
    requires forall i :: 0 <= i < |ts| ==> '\n' !in ts[i]
    ensures Split(ContentText(Thread(ts)), '\n') == ts
  {
    SplitJoin(ts, '\n');
  }

  /** The block of the scoring text for the version at list position `i`. */
  function ScoringBlock(i: nat, v: Version): string {
    "--- VERSION " + NatToString(i + 1) + " ---\n" + ContentText(v.content) + "\n\n"
  }

  function ScoringBlocks(vs: seq<Version>): (r: seq<string>)
    ensures |r| == |vs|
    ensures forall i :: 0 <= i < |vs| ==> r[i] == ScoringBlock(i, vs[i])
  {
    seq(|vs|, i requires 0 <= i < |vs| => ScoringBlock(i, vs[i]))
  }

  /** The scoring text: every version's block, in list order. */
  function ScoringText(vs: seq<Version>): string {
    Concat(ScoringBlocks(vs))
  }

  /** The loop of the service: one block appended per version, numbered from 1. */
  method BuildScoringText(vs: seq<Version>) returns (text: string)
    ensures text == ScoringText(vs)
  {
    text := "";
    var i := 0;
    while i < |vs|
      invariant 0 <= i <= |vs|
      invariant text == Concat(ScoringBlocks(vs)[..i])
    {
      var blocks := ScoringBlocks(vs);
      assert blocks[..i + 1][..i] == blocks[..i];
      text := text + ScoringBlock(i, vs[i]);
      i := i + 1;
    }
    assert ScoringBlocks(vs)[..|vs|] == ScoringBlocks(vs);
  }

  /** Version `i`'s block sits right after the blocks of the versions before it. */
  lemma ScoringBlockInOrder(vs: seq<Version>, i: nat)
    requires i < |vs|
    ensures OccursAt(ScoringText(vs), ScoringBlock(i, vs[i]), |Concat(ScoringBlocks(vs)[..i])|)
  {
    ConcatPieceAt(ScoringBlocks(vs), i);
  }

  /** What one reply entry does to the versions when the loop reaches it. */
  datatype Entry =
    | Abort
    | Skip
    | Assign(index: nat, score: JsonValue, justification: JsonValue)

  /**
   Classifies one entry against `n` versions. An entry that is not an object
   raises on `.get` and ends the loop. A missing or null index is skipped. An
   integer index, or a boolean (which Python treats as 0 or 1), assigns when it
   lies in `0 <= idx < n` and is skipped otherwise. A float index inside that
   range raises when used as a list index; outside it, it is skipped. Any
   other index raises on the comparison.
   */
  function Classify(p: JsonValue, n: nat): (e: Entry)
    ensures e.Assign? ==> e.index < n
    ensures e.Assign? ==>
      && p.JObject?
      && e.score == Get(p.fields, "virality_score")
      && e.justification == Get(p.fields, "justification")
    ensures !p.JObject? ==> e == Abort
    ensures p.JObject? && Get(p.fields, "version_index") == JNull ==> e == Skip
    ensures p.JObject? && Get(p.fields, "version_index").JInt? ==>
      var k := Get(p.fields, "version_index").i;
      && (0 <= k < n ==> e == Assign(k, Get(p.fields, "virality_score"), Get(p.fields, "justification")))
      && (!(0 <= k < n) ==> e == Skip)
    ensures p.JObject? && Get(p.fields, "version_index").JBool? ==>
      var k := if Get(p.fields, "version_index").b then 1 else 0;
      && (k < n ==> e == Assign(k, Get(p.fields, "virality_score"), Get(p.fields, "justification")))
      && (k >= n ==> e == Skip)
    ensures p.JObject? && Get(p.fields, "version_index").JFloat? ==>
      (e == Abort <==> 0.0 <= Get(p.fields, "version_index").r < n as real) && !e.Assign?
    ensures p.JObject? ==>
      var idx := Get(p.fields, "version_index");
      idx.JString? || idx.JArray? || idx.JObject? ==> e == Abort
  {
    match p
    case JObject(m) =>
      var assign := (k: nat) => Assign(k, Get(m, "virality_score"), Get(m, "justification"));
      (match Get(m, "version_index")
       case JNull => Skip
       case JInt(k) => if 0 <= k < n then assign(k) else Skip
       case JBool(b) => var k := if b then 1 else 0; if k < n then assign(k) else Skip
       case JFloat(x) => if 0.0 <= x < n as real then Abort else Skip
       case _ => Abort)
    case _ => Abort
  }

  /** Sets the two score fields of one version; content and analysis are untouched. */
  function WithScores(v: Version, score: JsonValue, justification: JsonValue): Version {
    v.(viralityScore := score, justification := justification)
  }

  /**
   The merge loop: entries are applied in order, each assignment overwrites
   the target version's score fields, and an entry that raises ends the loop
   with the assignments made so far kept.
   */
  function Merge(vs: seq<Version>, ps: seq<JsonValue>): (r: seq<Version>)
    ensures |r| == |vs|
    ensures forall i :: 0 <= i < |vs| ==> r[i].content == vs[i].content && r[i].analysis == vs[i].analysis
    decreases |ps|
  {
    if ps == [] then vs
    else
      match Classify(ps[0], |vs|)
      case Abort => vs
      case Skip => Merge(vs, ps[1..])
      case Assign(k, score, just) => Merge(vs[k := WithScores(vs[k], score, just)], ps[1..])
  }

  /** How many entries the loop gets through before one raises. */
  function Reach(ps: seq<JsonValue>, n: nat): (r: nat)
    ensures r <= |ps|
    ensures forall j :: 0 <= j < r ==> !Classify(ps[j], n).Abort?
    ensures r < |ps| ==> Classify(ps[r], n).Abort?
    decreases |ps|
  {
    if ps == [] || Classify(ps[0], n).Abort? then 0 else 1 + Reach(ps[1..], n)
  }

  /** Entry `j` is reached and assigns to version `k`. */
  predicate Writes(ps: seq<JsonValue>, n: nat, j: nat, k: nat) {
    j < Reach(ps, n) && Classify(ps[j], n).Assign? && Classify(ps[j], n).index == k
  }

  /** Past a non-raising first entry, the writes of the rest are the writes of the whole, shifted by one. */
  lemma WritesShift(ps: seq<JsonValue>, n: nat, k: nat)
    requires ps != [] && !Classify(ps[0], n).Abort?
    ensures forall j: nat :: 1 <= j ==> (Writes(ps, n, j, k) <==> Writes(ps[1..], n, j - 1, k))
  {
    assert Reach(ps, n) == 1 + Reach(ps[1..], n);
  }

  /** A version that no reached entry targets comes out of the merge unchanged. */
  lemma {:induction false} MergeUntouched(vs: seq<Version>, ps: seq<JsonValue>, k: nat)
    requires k < |vs|
    requires forall j: nat :: !Writes(ps, |vs|, j, k)
    ensures Merge(vs, ps)[k] == vs[k]
    decreases |ps|
  {
    var n := |vs|;
    if ps != [] {
      match Classify(ps[0], n)
      case Abort =>
      case Skip =>
        WritesShift(ps, n, k);
        forall j: nat
          ensures !Writes(ps[1..], n, j, k)
        {
          assert !Writes(ps, n, j + 1, k);
        }
        MergeUntouched(vs, ps[1..], k);
      case Assign(k0, score, just) =>
        WritesShift(ps, n, k);
        assert !Writes(ps, n, 0, k);
        var vs' := vs[k0 := WithScores(vs[k0], score, just)];
        forall j: nat
          ensures !Writes(ps[1..], |vs'|, j, k)
        {
          assert !Writes(ps, n, j + 1, k);
        }
        MergeUntouched(vs', ps[1..], k);
    }
  }

  /**
   A version takes its score fields from the last reached entry that targets
   it: later entries for the same index win.
   */
  lemma {:induction false} MergeLastWins(vs: seq<Version>, ps: seq<JsonValue>, k: nat, j: nat)
    requires k < |vs|
    requires Writes(ps, |vs|, j, k)
    requires forall j2: nat :: j < j2 ==> !Writes(ps, |vs|, j2, k)
    ensures Merge(vs, ps)[k] ==
      WithScores(vs[k], Classify(ps[j], |vs|).score, Classify(ps[j], |vs|).justification)
    decreases |ps|
  {
    var n := |vs|;
    var e := Classify(ps[0], n);
    assert !e.Abort?;
    WritesShift(ps, n, k);
    var vs' := if e.Assign? then vs[e.index := WithScores(vs[e.index], e.score, e.justification)] else vs;
    assert Merge(vs, ps) == Merge(vs', ps[1..]);
    if j == 0 {
      forall j2: nat
        ensures !Writes(ps[1..], |vs'|, j2, k)
      {
        assert !Writes(ps, n, j2 + 1, k);
      }
      MergeUntouched(vs', ps[1..], k);
    } else {
      forall j2: nat | j - 1 < j2
        ensures !Writes(ps[1..], |vs'|, j2, k)
      {
        assert !Writes(ps, n, j2 + 1, k);
      }
      assert Writes(ps[1..], |vs'|, j - 1, k);
      assert ps[1..][j - 1] == ps[j];
      MergeLastWins(vs', ps[1..], k, j - 1);
    }
  }

  /** Only a reply that parses to a list is iterated as entries; any other reply leaves every version as it was. */
  function ApplyScores(vs: seq<Version>, reply: Reply, parse: string -> Option<JsonValue>): (r: seq<Version>)
    ensures |r| == |vs|
    ensures forall i :: 0 <= i < |vs| ==> r[i].content == vs[i].content && r[i].analysis == vs[i].analysis
    ensures reply.Err? ==> r == vs
    ensures reply.Ok? && parse(reply.text).None? ==> r == vs
    ensures reply.Ok? && parse(reply.text).Some? && !parse(reply.text).value.JArray? ==> r == vs
    ensures reply.Ok? && parse(reply.text).Some? && parse(reply.text).value.JArray? ==>
      r == Merge(vs, parse(reply.text).value.items)
  {
    match reply
    case Err(_) => vs
    case Ok(text) =>
      match parse(text)
      case Some(JArray(entries)) => Merge(vs, entries)
      case _ => vs
  }

  /** An object reply, the shape the JSON-object response mode asks the provider for, assigns no score at all. */
  lemma ObjectReplyAssignsNothing(vs: seq<Version>, text: string, parse: string -> Option<JsonValue>)
    requires parse(text).Some? && parse(text).value.JObject?
    ensures ApplyScores(vs, Ok(text), parse) == vs
  {
  }
}

=== FILE: strings.dfy ===
/**
 String operations shared by the service and the browser client: trimming,
 substring search and removal, joining and splitting on a separator, and
 decimal rendering of integers.
 */
module Strings {

  /** The characters Python's `str.strip()` removes when called without arguments (`str.isspace`). */
  predicate IsPyWhitespace(c: char) {
    || ('\t' <= c <= '\r')
    || ('\U{1C}' <= c <= '\U{1F}')
    || c == ' ' || c == '\U{85}' || c == '\U{A0}' || c == '\U{1680}'
    || ('\U{2000}' <= c <= '\U{200A}')
    || c == '\U{2028}' || c == '\U{2029}' || c == '\U{202F}' || c == '\U{205F}' || c == '\U{3000}'
  }

  /** The characters JavaScript's `String.prototype.trim()` removes: white space and line terminators. */
  predicate IsJsWhitespace(c: char) {
    || ('\t' <= c <= '\r')
    || c == ' ' || c == '\U{A0}' || c == '\U{1680}'
    || ('\U{2000}' <= c <= '\U{200A}')
    || c == '\U{2028}' || c == '\U{2029}' || c == '\U{202F}' || c == '\U{205F}' || c == '\U{3000}'
    || c == '\U{FEFF}'
  }

  /** The index of the first character at or after `i` outside `ws`, or `|s|` when there is none. */
  function LeadFrom(s: string, ws: char -> bool, i: nat): (r: nat)
    requires i <= |s|
    ensures i <= r <= |s|
    ensures forall k :: i <= k < r ==> ws(s[k])
    ensures r == |s| || !ws(s[r])
    decreases |s| - i
  {
    if i < |s| && ws(s[i]) then LeadFrom(s, ws, i + 1) else i
  }

  /** The end of `s[lo..e]` once its trailing characters satisfying `ws` are dropped. */
  function TrailFrom(s: string, ws: char -> bool, lo: nat, e: nat): (r: nat)
    requires lo <= e <= |s|
    ensures lo <= r <= e
    ensures forall k :: r <= k < e ==> ws(s[k])
    ensures r == lo || !ws(s[r - 1])
    decreases e
  {
    if lo < e && ws(s[e - 1]) then TrailFrom(s, ws, lo, e - 1) else e
  }

  /**
   Removes leading and trailing characters satisfying `ws`. The result is the
   contiguous slice of `s` that starts at the first and ends at the last
   character outside `ws`.
   */
  function Strip(s: string, ws: char -> bool): (r: string)
    ensures var lead := LeadFrom(s, ws, 0);
      && lead + |r| <= |s|
      && r == s[lead..lead + |r|]
      && (forall k :: 0 <= k < lead ==> ws(s[k]))
      && (forall k :: lead + |r| <= k < |s| ==> ws(s[k]))
    ensures r == [] || (!ws(r[0]) && !ws(r[|r| - 1]))
  {
    var lead := LeadFrom(s, ws, 0);
    s[lead..TrailFrom(s, ws, lead, |s|)]
  }

  /** Python's `str.strip()`. */
  function PyStrip(s: string): string {
    Strip(s, IsPyWhitespace)
  }

  /** JavaScript's `String.prototype.trim()`. */
  function JsTrim(s: string): (r: string)
    ensures var lead := LeadFrom(s, IsJsWhitespace, 0);
      && lead + |r| <= |s|
      && r == s[lead..lead + |r|]
      && (forall k :: 0 <= k < lead ==> IsJsWhitespace(s[k]))
      && (forall k :: lead + |r| <= k < |s| ==> IsJsWhitespace(s[k]))
    ensures r == [] || (!IsJsWhitespace(r[0]) && !IsJsWhitespace(r[|r| - 1]))
  {
    Strip(s, IsJsWhitespace)
  }

  /** A string that neither starts nor ends with a `ws` character is left alone by `Strip`. */
  lemma StripKeepsTrimmed(s: string, ws: char -> bool)
    requires s == [] || (!ws(s[0]) && !ws(s[|s| - 1]))
    ensures Strip(s, ws) == s
  {
  }

  /** Every character of the stripped text is a character of the input. */
  lemma StripChars(s: string, ws: char -> bool, c: char)
    requires c in Strip(s, ws)
    ensures c in s
  {
    var r := Strip(s, ws);
    var lead := LeadFrom(s, ws, 0);
    var i :| 0 <= i < |r| && r[i] == c;
    assert s[lead + i] == c;
  }

  /** `pat` appears in `s` starting at index `i`. */
  predicate OccursAt(s: string, pat: string, i: nat) {
    i + |pat| <= |s| && s[i..i + |pat|] == pat
  }

  /** Python's `pat in s`. */
  predicate Contains(s: string, pat: string) {
    exists i: nat | i <= |s| :: OccursAt(s, pat, i)
  }

  /** Both `x` and `y` occur in `head + x + mid + y`. */
  lemma ContainsBoth(head: string, x: string, mid: string, y: string)
    ensures Contains(head + x + mid + y, x) && Contains(head + x + mid + y, y)
  {
    var s := head + x + mid + y;
    assert s[|head|..|head| + |x|] == x;
    assert OccursAt(s, x, |head|);
    assert s[|head + x + mid|..|s|] == y;
    assert OccursAt(s, y, |head + x + mid|);
  }

  /**
   `s` is laid out as `head`, then `x`, then `mid`, then `y`, with nothing
   else: each piece sits at its own offset and `y` ends the text.
   */
  predicate Laid(s: string, head: string, x: string, mid: string, y: string) {
    && |s| == |head| + |x| + |mid| + |y|
    && s[..|head|] == head
    && OccursAt(s, x, |head|)
    && OccursAt(s, mid, |head| + |x|)
    && s[|s| - |y|..] == y
  }

  /** Concatenating four pieces lays them out in order. */
  lemma LaidOut(head: string, x: string, mid: string, y: string)
    ensures Laid(head + x + mid + y, head, x, mid, y)
  {
    var s := head + x + mid + y;
    assert s[..|head|] == head;
    assert s[|head|..|head| + |x|] == x;
    assert s[|head| + |x|..|head| + |x| + |mid|] == mid;
    assert s[|s| - |y|..] == y;
  }

  /** `x` occurs in `head + x`. */
  lemma ContainsTail(head: string, x: string)
    ensures Contains(head + x, x)
  {
    var s := head + x;
    assert s[|head|..|s|] == x;
    assert OccursAt(s, x, |head|);
  }

  /**
   Python's `s.replace(pat, "")`: occurrences of `pat` are found left to right,
   without overlap, and each one is dropped.
   */
  function RemoveAll(s: string, pat: string): (r: string)
    requires |pat| > 0
    ensures |r| <= |s|
    decreases |s|
  {
    if |s| < |pat| then s
    else if s[..|pat|] == pat then RemoveAll(s[|pat|..], pat)
    else [s[0]] + RemoveAll(s[1..], pat)
  }

  /** A prefix in which the first character of `pat` never occurs passes through removal unchanged. */
  lemma {:induction false} RemoveAllKeepsPrefix(p: string, t: string, pat: string)
    requires |pat| > 0
    requires forall k :: 0 <= k < |p| ==> p[k] != pat[0]
    ensures RemoveAll(p + t, pat) == p + RemoveAll(t, pat)
    decreases |p|
  {
    if p == [] {
      assert p + t == t;
    } else {
      var s := p + t;
      if |s| >= |pat| {
        assert s[..|pat|][0] == p[0] != pat[0];
        assert RemoveAll(s, pat) == [p[0]] + RemoveAll(s[1..], pat);
        assert s[1..] == p[1..] + t;
        RemoveAllKeepsPrefix(p[1..], t, pat);
        assert p == [p[0]] + p[1..];
      }
    }
  }

  /** After removing a run of three `c`s, a result that starts with `c` came from an input that does. */
  lemma RemoveTripleHead(u: string, c: char)
    ensures |RemoveAll(u, [c, c, c])| >= 1 && RemoveAll(u, [c, c, c])[0] == c ==> |u| >= 1 && u[0] == c
  {
  }

  /** After removing a run of three `c`s, a result that starts with two `c`s came from an input that does. */
  lemma RemoveTripleTwoHeads(t: string, c: char)
    ensures var r := RemoveAll(t, [c, c, c]);
      |r| >= 2 && r[0] == c && r[1] == c ==> |t| >= 2 && t[0] == c && t[1] == c
  {
    var pat := [c, c, c];
    if |t| >= 3 && t[..3] != pat {
      assert RemoveAll(t, pat) == [t[0]] + RemoveAll(t[1..], pat);
      RemoveTripleHead(t[1..], c);
    }
  }

  /**
   Removing every run of three `c`s leaves none behind: a new run cannot form
   across the seam of a removed occurrence, because the scan is leftmost-first.
   */
  lemma {:induction false} RemoveTripleLeavesNone(s: string, c: char)
    ensures !Contains(RemoveAll(s, [c, c, c]), [c, c, c])
    decreases |s|
  {
    var pat := [c, c, c];
    var r := RemoveAll(s, pat);
    if |s| < 3 {
      assert r == s;
    } else if s[..3] == pat {
      RemoveTripleLeavesNone(s[3..], c);
    } else {
      var rest := RemoveAll(s[1..], pat);
      assert r == [s[0]] + rest;
      RemoveTripleLeavesNone(s[1..], c);
      forall i: nat | i <= |r|
        ensures !OccursAt(r, pat, i)
      {
        if i == 0 {
          if |r| >= 3 {
            RemoveTripleTwoHeads(s[1..], c);
            assert r[0] == s[0] && r[1] == rest[0] && r[2] == rest[1];
          }
        } else if i + 3 <= |r| {
          assert r[i..i + 3] == rest[i - 1..i + 2];
          assert !OccursAt(rest, pat, i - 1);
        }
      }
    }
  }

  /** Python's `sep.join(parts)`. */
  function Join(parts: seq<string>, sep: string): string
    decreases |parts|
  {
    if |parts| == 0 then ""
    else if |parts| == 1 then parts[0]
    else parts[0] + sep + Join(parts[1..], sep)
  }

  /** Python's `s.split(sep)` for a one-character separator: always at least one piece. */
  function Split(s: string, sep: char): (r: seq<string>)
    ensures |r| >= 1
    decreases |s|
  {
    if |s| == 0 then [""]
    else
      var rest := Split(s[1..], sep);
      if s[0] == sep then [""] + rest
      else [[s[0]] + rest[0]] + rest[1..]
  }

  /** A piece without the separator followed by the separator splits off as one piece. */
  lemma {:induction false} SplitAfterPiece(a: string, b: string, sep: char)
    requires sep !in a
    ensures Split(a + [sep] + b, sep) == [a] + Split(b, sep)
    decreases |a|
  {
    if a == [] {
      assert a + [sep] + b == [sep] + b;
      assert ([sep] + b)[1..] == b;
    } else {
      var s := a + [sep] + b;
      assert s[0] == a[0];
      assert s[1..] == a[1..] + [sep] + b;
      SplitAfterPiece(a[1..], b, sep);
      assert [a[0]] + a[1..] == a;
    }
  }

  /** A text without the separator splits into itself. */
  lemma {:induction false} SplitWhole(a: string, sep: char)
    requires sep !in a
    ensures Split(a, sep) == [a]
    decreases |a|
  {
    if a != [] {
      SplitWhole(a[1..], sep);
      assert [a[0]] + a[1..] == a;
    }
  }

  /** Splitting a join on the same one-character separator gives back the pieces. */
  lemma {:induction false} SplitJoin(parts: seq<string>, sep: char)
    requires |parts| >= 1
    requires forall i :: 0 <= i < |parts| ==> sep !in parts[i]
    ensures Split(Join(parts, [sep]), sep) == parts
    decreases |parts|
  {
    if |parts| == 1 {
      SplitWhole(parts[0], sep);
    } else {
      SplitJoin(parts[1..], sep);
      SplitAfterPiece(parts[0], Join(parts[1..], [sep]), sep);
      assert [parts[0]] + parts[1..] == parts;
    }
  }

  /** Concatenation of a sequence of texts, built from the back so that appending a piece is one step. */
  function Concat(parts: seq<string>): string
    decreases |parts|
  {
    if parts == [] then "" else Concat(parts[..|parts| - 1]) + parts[|parts| - 1]
  }

  /** The concatenation of a prefix is a prefix of the concatenation. */
  lemma {:induction false} ConcatPrefix(parts: seq<string>, k: nat)
    requires k <= |parts|
    ensures |Concat(parts[..k])| <= |Concat(parts)|
    ensures Concat(parts)[..|Concat(parts[..k])|] == Concat(parts[..k])
    decreases |parts| - k
  {
    if k < |parts| {
      var next := parts[..k + 1];
      assert next[..k] == parts[..k];
      ConcatPrefix(parts, k + 1);
      assert Concat(next) == Concat(parts[..k]) + parts[k];
    } else {
      assert parts[..k] == parts;
    }
  }

  /** Piece `i` appears in the concatenation right after the pieces before it: the pieces keep their order. */
  lemma ConcatPieceAt(parts: seq<string>, i: nat)
    requires i < |parts|
    ensures OccursAt(Concat(parts), parts[i], |Concat(parts[..i])|)
  {
    var next := parts[..i + 1];
    assert next[..i] == parts[..i];
    assert Concat(next) == Concat(parts[..i]) + parts[i];
    ConcatPrefix(parts, i + 1);
  }

  function DigitChar(d: nat): char
    requires d < 10
  {
    ('0' as int + d) as char
  }

  /** Decimal rendering of a natural number, as Python's `str` and JavaScript's template literals print it. */
  function NatToString(n: nat): (r: string)
    ensures |r| >= 1
    ensures forall i :: 0 <= i < |r| ==> '0' <= r[i] <= '9'
    ensures r[0] == '0' ==> n == 0 && r == "0"
    decreases n
  {
    if n < 10 then [DigitChar(n)] else NatToString(n / 10) + [DigitChar(n % 10)]
  }

  /** Every character is a decimal digit. */
  predicate AllDigits(s: string) {
    forall i :: 0 <= i < |s| ==> '0' <= s[i] <= '9'
  }

  /** The number a string of decimal digits denotes. */
  function DecimalValue(s: string): nat
    requires AllDigits(s)
    decreases |s|
  {
    if s == [] then 0
    else DecimalValue(s[..|s| - 1]) * 10 + (s[|s| - 1] as int - '0' as int)
  }

  /** Reading back the decimal rendering gives the number. */
  lemma {:induction false} DecimalRoundTrip(n: nat)
    ensures DecimalValue(NatToString(n)) == n
    decreases n
  {
    var r := NatToString(n);
    if n < 10 {
      assert r[..0] == [];
    } else {
      DecimalRoundTrip(n / 10);
      assert r[..|r| - 1] == NatToString(n / 10);
      assert r[|r| - 1] as int - '0' as int == n % 10;
    }
  }

  /** Different numbers render differently. */
  lemma NatToStringInjective(m: nat, n: nat)
    requires m != n
    ensures NatToString(m) != NatToString(n)
  {
    DecimalRoundTrip(m);
    DecimalRoundTrip(n);
  }

  /** Decimal rendering of an integer with a leading minus sign when negative. */
  function IntToString(i: int): string {
    if i < 0 then "-" + NatToString(-i) else NatToString(i)
  }

  /** `t` is the decimal rendering of `i`: an optional minus sign exactly for negatives, then digits denoting `|i|`. */
  predicate ReadsAs(t: string, i: int) {
    if i < 0 then
      |t| >= 2 && t[0] == '-' && AllDigits(t[1..]) && DecimalValue(t[1..]) == -i
    else
      |t| >= 1 && AllDigits(t) && DecimalValue(t) == i
  }

  /** The rendering of an integer reads back as that integer. */
  lemma IntToStringReadsBack(i: int)
    ensures ReadsAs(IntToString(i), i)
  {
    if i < 0 {
      var d := NatToString(-i);
      DecimalRoundTrip(-i);
      var t := "-" + d;
      assert t[1..] == d;
      assert AllDigits(t[1..]);
      assert IntToString(i) == t;
    } else {
      DecimalRoundTrip(i);
    }
  }
}

=== FILE: wrappers.dfy ===
/** Optional values and success-or-error results used throughout the model. */
module Wrappers {

  datatype Option<+T> = None | Some(value: T)

  datatype Result<+T, +E> = Success(value: T) | Failure(error: E)
}
